=== FILE: README.md ===
# Ledger state machine of pueblo, in Dafny

This project models the ledger state machine of pueblo's `database` package (`database/state.go`).
The state is four things:

- a table of account balances,
- a mempool of admitted transactions,
- the append-only block log on disk,
- the latest committed block and its hash.

One transition function, `apply`, drives the state:

- A reward transaction, whose data tag is `"reward"`, credits its recipient unconditionally.
- A transfer is refused when its value exceeds the sender's balance. An account absent from the table reads as 0.
- Otherwise a transfer debits the sender and credits the recipient.

On top of `apply`:

- `applyBlock` folds `apply` over a block's transactions and stops at the first error.
- `AddTx` admits a transaction to the live balances and the mempool.
- `AddBlock` commits a block: clone the state, apply the block to the clone, hash the block, append the `(hash, block)` record to the log, and only then swap in the clone's balances and the new latest block and hash.
- `AddBlocks` commits blocks one by one.
- `NewStateFromDisk` rebuilds the state at startup. It copies the genesis balances and replays every logged block until the first empty line.

Files, one module each:

| file | module | contents |
|---|---|---|
| `types.dfy` | `Types` | accounts, transactions, blocks, 32-byte hashes, log records, errors, `Result`/`Option` |
| `balances.dfy` | `Balances` | the balance table with a default-0 lookup, and the sum of all balances |
| `transition.dfy` | `Transition` | `Apply`, the fold `ApplyTxs`, and the loop `ApplyBlock` |
| `state.dfy` | `Ledger` | `State`, `AddTx`, `AddBlock`, `AddBlocks`, `LatestBlock`, `LatestBlockHash` |
| `startup.dfy` | `Startup` | log replay, both corrected and as written, and the replay loop `NewStateFromDisk` |
| `durability.dfy` | `Durability` | how the live state relates to what a restart would rebuild from the log |

Modelling choices:

- Balances are a `map<Account, nat>`. Writes insert keys as Go map writes do, so the map itself is modelled exactly; `Get` gives the default-0 read.
- The block hash is a parameter `hash: Block -> Option<Hash>`. It is deterministic because it is a function. `None` stands for the error `Block.Hash` can return.
- Whether a block's log line is short enough for the reader is a parameter `fits: Block -> bool`. The scanner of line 44 keeps the default 64 KiB token limit, while line 111 writes a line of any length. `AddBlock` therefore appends the record a restart reads back: an `Entry` when the line fits, and `TooLong` when it does not.
- Whether the append to the log file succeeded is an input: `written: bool` for `AddBlock`, and `written: nat -> bool` for `AddBlocks` (the outcome of the i-th append).
- The log is a sequence of `Record`s, as the line scanner delivers it:
  - a decoded `Entry(key, block)`,
  - an empty line (`Blank`),
  - a line that does not decode (`Garbled`),
  - the point where the scanner stops with an error:
    - `ReadError(pending)`, a failed read, with or without an unterminated line in the scanner's buffer;
    - `TooLong`, a line longer than the scanner's 64 KiB token limit.
- `State.db` holds the log contents, standing in for the open `dbFile`.
- `LatestBlock` and `LatestBlockHash` are field projections. The contracts of `AddBlock`, `AddBlocksPointsAtLastBlock`, `AddBlocksPointsAtLastCommitted`, `ReplayFrom` and `Replay` state what they return.
- `database/state.go` does not compile as written. The model follows its evident intent:
  - Line 90 compares (`pendingState != s.copy()`) where a clone is meant. The model clones the state.
  - Line 92 calls a free `applyBlock(b, pendingState)`. The model applies the block to the clone with the method of lines 148-156.
  - Line 65 calls `applyTXs`, which is not part of this model. It is modelled as the same in-order fold as `applyBlock`.
  - `Tx.IsReward`, `Block.Hash`, `copy`, `BlockFS` and `loadGenesis` are defined in files that are not part of this model. `IsReward` is modelled as `data == "reward"`.
- Two behaviours are kept as the code has them, not as a cleaner design would have them:
  - `AddTx` mutates the live balances and writes nothing to the log.
  - `AddBlock` applies the block's transactions again on its own path and does not clear the mempool.

  `Ledger.AdmittedThenCommittedTakesEffectTwice` and `Durability.AdmissionDivergesFromLog` state the consequences.

## Model

| member | source | states |
|---|---|---|
| `Transition.Apply` | database/state.go:132-146 | succeeds exactly for a reward or a transfer whose value is at most the sender's balance (absent = 0); failure is `InsufficientFunds`; on success every account changes by exactly `Delta`: the recipient gains the value, the sender of a transfer loses it, and all others are unchanged (a self-transfer changes nothing); the total rises by the minted amount and is otherwise conserved |
| `Transition.ApplyTxs` | database/state.go:148-156 | the in-order fold of `Apply`: its only error is `InsufficientFunds`, a block of rewards never fails, and on success the total equals the old total plus the block's rewards |
| `Transition.ApplyTxsAppend` | database/state.go:148-156 | applying `a + b` is applying `a`, then `b` to its result; a failure in `a` is the result |
| `Transition.ApplyTxsStep` | database/state.go:149-153 | each transaction is applied to the balances the transactions before it produced |
| `Transition.ApplyTxsFailsIffSomeTxFails` | database/state.go:148-156 | a block fails if and only if some transaction fails on the balances its predecessors produced |
| `Transition.ApplyBlock` | database/state.go:148-156 | the loop that returns at the first error computes exactly the fold `ApplyTxs` |
| `Ledger.AddTx` | database/state.go:124-130 | succeeds exactly when `Apply` does; on failure the state (balances, mempool, log, latest block and hash) is unchanged; on success the mempool is the old one plus `tx`, every balance changes by `Delta`, and log, latest block and latest hash are unchanged; the total rises only by a reward's value |
| `Ledger.AddBlock` | database/state.go:89-121 | succeeds exactly when the block applies, hashes and is written; any failure leaves the whole state unchanged and reports, in order, insufficient funds, hash failure, or write failure; on success the balances are the block applied to the old ones, the latest block is `b`, the returned hash is `hash(b)` and is the latest hash, the log grows by exactly the record of `(hash(b), b)` as a restart reads it back (the entry when its line fits the reader's 64 KiB limit, otherwise a too-long line), and the mempool is untouched |
| `Ledger.AddBlocks` | database/state.go:78-86 | the log only grows, by at most one record per block; the call succeeds exactly when every block was logged; the mempool is untouched |
| `Ledger.AddBlocksLogsEachBlock` | database/state.go:78-86 | the records added are, in order, `(hash(b), b)` for each committed block, each too long to read back when its line does not fit |
| `Ledger.AddBlocksStopsAtFirstFailure` | database/state.go:79-83 | on failure, the block after the committed ones fails to commit on the state they produced, and its error is the error returned; the committed blocks stay committed |
| `Ledger.AddBlocksPointsAtLastBlock` | database/state.go:78-86 | after success on a non-empty list, the latest block is the last block and the latest hash is that block's hash |
| `Ledger.AddBlocksPointsAtLastCommitted` | database/state.go:78-86 | whether the call succeeds or stops part-way, the latest block is the last block committed and the latest hash is that block's hash; with no block committed (an empty list, or a first block that fails) both are unchanged |
| `Ledger.LatestBlock` | database/state.go:163-166 | the block last committed: `b` after a successful `AddBlock` (its contract), the last block after a successful `AddBlocks` (`AddBlocksPointsAtLastBlock`), the last committed block, or the previous latest block when none was committed, after any `AddBlocks` (`AddBlocksPointsAtLastCommitted`), the last replayed entry's block after startup (`ReplayFrom`), and the zero block when no entry was replayed (`Replay`) |
| `Ledger.LatestBlockHash` | database/state.go:168-171 | the hash of the block last committed: `hash(b)` after a successful `AddBlock`, the last block's hash after a successful `AddBlocks`, the last committed block's hash or the previous latest hash after any `AddBlocks`, the last replayed entry's key after startup, and the zero hash when no entry was replayed |
| `Ledger.AddBlocksAppliesCommitted` | database/state.go:78-86 | the balances left are those of applying, in order, all transactions of the committed blocks to the starting balances; blocks after the first failure have no effect |
| `Ledger.AddBlocksMintsCommitted` | database/state.go:78-86 | the total changes by exactly the rewards in the committed blocks |
| `Ledger.AdmittedThenCommittedTakesEffectTwice` | database/state.go:89-130 | a transaction admitted with `AddTx` and then committed in a block changes every balance by twice its `Delta`, and stays in the mempool |
| `Startup.Scanned` | database/state.go:48-57 | the records replay visits are the longest prefix of the log with no empty line, and the next record, if any, is an empty line |
| `Startup.ReplayFrom` | database/state.go:48-72 | on success every visited record was a decoded entry; the total equals the starting total plus all replayed rewards; the latest block and hash are those of the last visited entry, or unchanged when none was visited; errors are insufficient funds, an undecodable line or a failed read |
| `Startup.Initial` | database/state.go:33-45 | the state replay starts from: a copy of the genesis balances, an empty mempool, the log, and a zero latest block and hash; `Replay`'s contract states that these are what startup returns when no entry is replayed |
| `Startup.Replay` | database/state.go:33-45 | replay starts from the genesis balances, an empty mempool and the log; an empty log yields the genesis balances with a zero block and zero hash, and so does any log whose first line is empty |
| `Startup.ReplayFromAsWritten` | database/state.go:48-72 | the loop as written: its errors are insufficient funds, an undecodable line, or a failed read, and a failed read is reported only when it comes with a buffered unterminated line (`ReadError(true)`) |
| `Startup.ReplayAsWritten` | database/state.go:22-75 | startup as written: the loop as written from the genesis state over the whole log; an empty log yields the genesis balances with a zero block and zero hash |
| `Startup.ReadFailureHidesLaterBlocks` | database/state.go:48-51 | as written, a read error with nothing buffered, or a line over the token limit, ends replay with success and the genesis state, hiding every later block; the corrected replay fails with `ReadFailed` |
| `Startup.AsWrittenAgreesWithoutSwallowedErrors` | database/state.go:48-72 | the loop as written and the corrected replay give the same result on every log in which no visited record is a read error with nothing buffered or an over-long line |
| `Startup.ReplayIsOneFold` | database/state.go:48-72 | replay succeeds exactly when one fold of `Apply` over all visited blocks' transactions, concatenated in log order, succeeds, and then yields the same balances |
| `Startup.NewStateFromDisk` | database/state.go:22-75 | the corrected replay loop (scanner errors that deliver no line are reported) computes exactly `Replay` |
| `Durability.ReplayAppendEntry` | database/state.go:48-72 | replaying a log with one more entry applies that entry's block to the replayed state and points the latest block and hash at it |
| `Durability.CommitKeepsStateRecoverable` | database/state.go:89-121 | for a log with no empty line and a block whose line fits the reader's limit: if restarting from the current log would rebuild the live state, it still would after `AddBlock`, and the log still has no empty line; this holds whether the commit succeeded or failed, and a failed commit keeps it because the model's failed write appends nothing (see `Ledger.AddBlock` under Left out) |
| `Durability.CommitsKeepStateRecoverable` | database/state.go:78-86 | for a log with no empty line and blocks whose lines all fit, the same holds after `AddBlocks`, including when it stops part-way, again assuming a failed write appends nothing |
| `Durability.ReplayAppendRecord` | database/state.go:48-72 | after a log with no empty line whose replay succeeds, both the corrected loop and the loop as written continue from the state that log replays to |
| `Durability.OverlongCommitIsLostOnRestart` | database/state.go:44-121 | a successful commit of a block whose line exceeds the reader's 64 KiB limit leaves a live state no restart rebuilds: the corrected replay fails with `ReadFailed`, and the loop as written silently rebuilds the state from before the commit, dropping every record after it |
| `Durability.UnlimitedReaderKeepsCommitsRecoverable` | database/state.go:44-121 | with a reader whose line limit admits every line the writer produces, any `AddBlocks` call keeps a recoverable state recoverable |
| `Durability.ReplayStopsAtBlank` | database/state.go:55-57 | whatever follows the first empty line of the log is never replayed |
| `Durability.CommitAfterBlankLineIsLostOnRestart` | database/state.go:39-121 | the log is opened for appending (line 39), so once it holds an empty line, a successful commit that changes the balances leaves a live state that no restart rebuilds |
| `Durability.CommitAfterBlankLineExample` | database/state.go:39-121 | an instance of that: the log `[Blank]`, a block minting 1 to "A", and a successful write; the state was recoverable before the commit and is not after it |
| `Durability.AdmissionDivergesFromLog` | database/state.go:124-130 | after admitting a transaction that mints or moves a positive value between two accounts, a restart would no longer rebuild the live balances |

## Left out

- Transition.Apply: balances and values are unbounded naturals. The source uses Go `uint`, and a credit there wraps around past 2^64 - 1; the model has no wrap-around. The debit cannot wrap, because it happens only when the value is at most the balance.
- Ledger.AddBlock: a failed append leaves the log unchanged in the model. A partially completed `dbFile.Write` in the source can leave a truncated line in the file, which a later replay reads as an undecodable line (`Garbled`) and rejects.
- Ledger.AddBlock: the model applies the block with the method of lines 148-156, which checks no block header. Line 92 calls a free `applyBlock(b, pendingState)` that is not part of this model, and any header checks it makes are not modelled. Two such checks would be the number of block N+1 being N's number plus one, and its parent being the hash of block N.
- Ledger.AddBlock: a failure of `json.Marshal` on the `(hash, block)` record is folded into the write outcome `written`; both leave the state unchanged.
- Ledger.LogRecord: the JSON round trip of a logged block (lines 102-111 written, line 60 read) is taken to give back exactly `Entry(hash, block)`. Accounts and data tags are Unicode strings in the model. Go strings are byte strings, and `json.Marshal` rewrites invalid UTF-8 in them to U+FFFD, so such a block would read back as a different block with different account keys. Those byte strings are not modelled, and `Durability.CommitKeepsStateRecoverable` does not cover them.
- Hashing: `Block.Hash` and the digest it computes are a parameter. Only its determinism and its possible failure are modelled.
- Genesis: `initDataDirIfNotExists`, `loadGenesis` and its JSON decoding are outside the model. The genesis balances are an input, and a failure to load them is not modelled.
- Opening the log: the `os.OpenFile` error path is not modelled.
- JSON decoding of log lines is abstracted to `Entry` versus `Garbled`. `bufio.Scanner` line splitting is abstracted to the `Record` sequence.
- Logging (`fmt.Printf`) and `Close` are I/O with no effect on the state.
- `copy` is not part of this model. The clone is a value copy of the whole state, and only its balances are used.
- Concurrency: the source shares one unsynchronised map across HTTP handlers. The model is sequential.
- node/node.go (HTTP handlers) and cmd/popay/balances.go (CLI printing) are callers of this core and are not modelled.
- Replay determinism needs no lemma: `Replay` is a function, so two replays of the same genesis and log are equal.

## Findings

| source | as written | input that shows it | evidently intended | confidence | as-written member | corrected member |
|---|---|---|---|---|---|---|
| database/state.go:48-51 | `scanner.Err()` is checked only inside the `for scanner.Scan()` body, and nothing checks it after the loop. The check fires only when a read fails with an unterminated line buffered, because `Scan` then delivers that line. Two errors make `Scan` return false without delivering a line: a read error with nothing buffered, and a line longer than the 64 KiB token limit. Either one ends the loop, and line 74 returns the partly replayed state with no error. | a log whose first line is over 64 KiB, or whose read fails at a line boundary, before its blocks: `[TooLong] + blocks` and `[ReadError(false)] + blocks` replay to the genesis balances and a zero latest block | any scanner error is reported and startup stops | medium-high (read from the standard library's `bufio.Scanner` implementation); not executed | `Startup.ReplayFromAsWritten`, `Startup.ReplayAsWritten`, `Startup.ReadFailureHidesLaterBlocks` | `Startup.ReplayFrom` (success implies every visited record decoded), used by `Startup.Replay` and `Startup.NewStateFromDisk` |
| database/state.go:44-121 | Line 111 appends a JSON line of any length, but the scanner of line 44 keeps `bufio.Scanner`'s default 64 KiB token limit. Replay of a longer line stops with `ErrTooLong`, which the loop as written swallows (row above). | a block whose transactions carry more than 64 KiB of `data`: `AddBlock` succeeds, and every later restart rebuilds the state from before that block, dropping it and every block committed after it | every line the node writes can be read back on restart, for example by giving the scanner a buffer as large as the longest line | medium-high (read from the standard library's `bufio.Scanner` implementation); not executed | `Durability.OverlongCommitIsLostOnRestart` | `Durability.UnlimitedReaderKeepsCommitsRecoverable` (with `Durability.CommitsKeepStateRecoverable`) |

=== FILE: balances.dfy ===
/**
 The balances table: a finite map from account to unsigned amount in which
 an absent account reads as zero, and the total amount held by all accounts.
 */
module Balances {
  import opened Types

  type Balances = map<Account, nat>

  /** The balance of an account; an account with no entry holds zero. */
  function Get(m: Balances, a: Account): nat
  {
    if a in m then m[a] else 0
  }

  /** The sum of all balances in the table. */
  ghost function Total(m: Balances): nat
    decreases |m|
  {
    if m == map[] then 0
    else
      var k :| k in m;
      m[k] + Total(m - {k})
  }

  /** The total splits into any one entry plus the total of the others. */
  lemma {:induction false} TotalRemove(m: Balances, k: Account)
    requires k in m
    ensures Total(m) == m[k] + Total(m - {k})
    decreases |m|
  {
    var j :| j in m && Total(m) == m[j] + Total(m - {j});
    if j != k {
      var mj := m - {j};
      var mk := m - {k};
      assert k in mj;
      assert |mj| < |m| by { assert mj.Keys == m.Keys - {j}; }
      assert |mk| < |m| by { assert mk.Keys == m.Keys - {k}; }
      TotalRemove(mj, k);
      TotalRemove(mk, j);
      assert mj - {k} == mk - {j};
    }
  }

  /** Writing `v` for account `k` changes the total by `v` minus the
      balance `k` held before (zero when it had no entry). */
  lemma TotalUpdate(m: Balances, k: Account, v: nat)
    ensures Total(m[k := v]) + Get(m, k) == Total(m) + v
  {
    var m' := m[k := v];
    TotalRemove(m', k);
    if k in m {
      TotalRemove(m, k);
      assert m' - {k} == m - {k};
    } else {
      assert m' - {k} == m;
    }
  }
}

=== FILE: durability.dfy ===
/**
 How the live state relates to the block log: committing blocks keeps the
 live state equal to what a restart would rebuild from the log, while
 admitting a transaction to the mempool changes the live balances without
 writing anything to the log.
 */
module Durability {
  import opened Types
  import opened Balances
  import opened Transition
  import opened Ledger
  import opened Startup

  /** A restart from `genesis` would rebuild `s` (up to its mempool, which
      is not persisted) from the log `s` holds. */
  ghost predicate Recoverable(genesis: Balances, s: State)
  {
    Replay(genesis, s.db) == Ok(s.(mempool := []))
  }

  /** The log file a state points at plays no part in replaying records. */
  lemma {:induction false} ReplayIgnoresDb(st: State, records: seq<Record>, db: seq<Record>)
    ensures ReplayFrom(st.(db := db), records)
         == (if ReplayFrom(st, records).Ok? then Ok(ReplayFrom(st, records).value.(db := db))
             else ReplayFrom(st, records))
    decreases |records|
  {
    if records != [] && records[0].Entry? {
      var blk := records[0].value;
      match ApplyTxs(st.balances, blk.txs)
      case Err(_) =>
      case Ok(applied) =>
        var next := st.(balances := applied, latestBlock := blk, latestHash := records[0].key);
        ReplayIgnoresDb(next, records[1..], db);
        assert next.(db := db) == st.(db := db).(balances := applied, latestBlock := blk, latestHash := records[0].key);
    }
  }

  /** Replaying one more entry after a log without empty lines applies that
      entry's block to the replayed state. */
  lemma {:induction false} ReplayAppendEntry(st: State, records: seq<Record>, key: Hash, b: Block)
    requires NoBlankLines(records)
    requires ReplayFrom(st, records).Ok?
    ensures var done := ReplayFrom(st, records).value;
      ReplayFrom(st, records + [Entry(key, b)])
        == (if ApplyTxs(done.balances, b.txs).Err? then Err(InsufficientFunds)
            else Ok(done.(balances := ApplyTxs(done.balances, b.txs).value, latestBlock := b, latestHash := key)))
    decreases |records|
  {
    if records == [] {
      assert records + [Entry(key, b)] == [Entry(key, b)];
      assert [Entry(key, b)][1..] == [];
    } else {
      assert (records + [Entry(key, b)])[0] == records[0];
      assert (records + [Entry(key, b)])[1..] == records[1..] + [Entry(key, b)];
      assert !records[0].Blank?;
      var blk := records[0].value;
      var next := st.(balances := ApplyTxs(st.balances, blk.txs).value, latestBlock := blk, latestHash := records[0].key);
      assert NoBlankLines(records[1..]) by {
        forall i | 0 <= i < |records| - 1 ensures !records[1..][i].Blank? {
          assert records[1..][i] == records[i + 1];
        }
      }
      ReplayAppendEntry(next, records[1..], key, b);
    }
  }

  /** Committing a block whose line the reader can take back keeps the live
      state equal to what a restart would rebuild: on failure nothing
      changes, and on success the log gains the record whose replay yields
      the new balances and latest block. */
  lemma CommitKeepsStateRecoverable(genesis: Balances, s: State, b: Block, hash: Block -> Option<Hash>, fits: Block -> bool, written: bool)
    requires Recoverable(genesis, s) && NoBlankLines(s.db)
    requires fits(b)
    ensures var r := AddBlock(s, b, hash, fits, written);
      Recoverable(genesis, r.state) && NoBlankLines(r.state.db)
  {
    var r := AddBlock(s, b, hash, fits, written);
    if r.result.Ok? {
      var h := r.result.value;
      var log := s.db + [LogRecord(h, b, fits)];
      assert NoBlankLines(log) by {
        forall i | 0 <= i < |log| ensures !log[i].Blank? {
          if i < |s.db| { assert log[i] == s.db[i]; }
        }
      }
      ReplayIgnoresDb(Initial(genesis, s.db), s.db, log);
      assert Initial(genesis, s.db).(db := log) == Initial(genesis, log);
      ReplayAppendEntry(Initial(genesis, log), s.db, h, b);
    }
  }

  /** Committing a list of blocks whose lines all fit keeps the live state
      recoverable, whether all of them are committed or the commit stops
      part-way. */
  lemma {:induction false} CommitsKeepStateRecoverable(genesis: Balances, s: State, blocks: seq<Block>, hash: Block -> Option<Hash>, fits: Block -> bool, written: nat -> bool)
    requires Recoverable(genesis, s) && NoBlankLines(s.db)
    requires forall i :: 0 <= i < |blocks| ==> fits(blocks[i])
    ensures var r := AddBlocks(s, blocks, hash, fits, written);
      Recoverable(genesis, r.state) && NoBlankLines(r.state.db)
    decreases |blocks|
  {
    if blocks != [] {
      CommitKeepsStateRecoverable(genesis, s, blocks[0], hash, fits, written(0));
      var first := AddBlock(s, blocks[0], hash, fits, written(0));
      if first.result.Ok? {
        forall i | 0 <= i < |blocks| - 1 ensures fits(blocks[1..][i]) {
          assert blocks[1..][i] == blocks[i + 1];
        }
        CommitsKeepStateRecoverable(genesis, first.state, blocks[1..], hash, fits, (i: nat) => written(i + 1));
      }
    }
  }

  /** A reader with no line limit, such as a scanner given a buffer as
      large as any line the writer produces: every logged block fits. */
  predicate Unlimited(b: Block)
  {
    true
  }

  /** With a reader that has no line limit, committing any list of blocks
      keeps the live state recoverable. */
  lemma UnlimitedReaderKeepsCommitsRecoverable(genesis: Balances, s: State, blocks: seq<Block>, hash: Block -> Option<Hash>, written: nat -> bool)
    requires Recoverable(genesis, s) && NoBlankLines(s.db)
    ensures var r := AddBlocks(s, blocks, hash, Unlimited, written);
      Recoverable(genesis, r.state) && NoBlankLines(r.state.db)
  {
    CommitsKeepStateRecoverable(genesis, s, blocks, hash, Unlimited, written);
  }

  /** After a log without empty lines whose replay succeeds, replay goes on
      from the state it reached, in the corrected loop and in the loop as
      written alike. */
  lemma {:induction false} ReplayAppendRecord(st: State, records: seq<Record>, rec: Record, more: seq<Record>)
    requires NoBlankLines(records)
    requires ReplayFrom(st, records).Ok?
    ensures var done := ReplayFrom(st, records).value;
      && ReplayFrom(st, records + [rec] + more) == ReplayFrom(done, [rec] + more)
      && ReplayFromAsWritten(st, records + [rec] + more) == ReplayFromAsWritten(done, [rec] + more)
    decreases |records|
  {
    if records == [] {
      assert records + [rec] + more == [rec] + more;
    } else {
      var all := records + [rec] + more;
      assert all[0] == records[0];
      assert all[1..] == records[1..] + [rec] + more;
      assert !records[0].Blank?;
      var blk := records[0].value;
      var next := st.(balances := ApplyTxs(st.balances, blk.txs).value, latestBlock := blk, latestHash := records[0].key);
      assert NoBlankLines(records[1..]) by {
        forall i | 0 <= i < |records| - 1 ensures !records[1..][i].Blank? {
          assert records[1..][i] == records[i + 1];
        }
      }
      ReplayAppendRecord(next, records[1..], rec, more);
    }
  }

  /** The log writer has no line limit but the reader's scanner has the
      default 64 KiB one. Committing a block whose line is longer succeeds,
      yet no restart rebuilds the result: the corrected replay fails on the
      line, and the loop as written stops there without an error, rebuilding
      the state from before the commit and dropping every block committed
      after it. */
  lemma OverlongCommitIsLostOnRestart(genesis: Balances, s: State, b: Block, hash: Block -> Option<Hash>, fits: Block -> bool, written: bool, more: seq<Record>)
    requires Recoverable(genesis, s) && NoBlankLines(s.db)
    requires AddBlock(s, b, hash, fits, written).result.Ok?
    requires !fits(b)
    ensures var log := AddBlock(s, b, hash, fits, written).state.db;
      && Replay(genesis, log + more) == Err(ReadFailed)
      && ReplayAsWritten(genesis, log + more) == Ok(s.(mempool := [], db := log + more))
    ensures !Recoverable(genesis, AddBlock(s, b, hash, fits, written).state)
  {
    var log := AddBlock(s, b, hash, fits, written).state.db;
    assert log == s.db + [TooLong];
    ReplayIgnoresDb(Initial(genesis, s.db), s.db, log + more);
    assert Initial(genesis, s.db).(db := log + more) == Initial(genesis, log + more);
    ReplayAppendRecord(Initial(genesis, log + more), s.db, TooLong, more);
    ReplayIgnoresDb(Initial(genesis, s.db), s.db, log);
    assert Initial(genesis, s.db).(db := log) == Initial(genesis, log);
    ReplayAppendRecord(Initial(genesis, log), s.db, TooLong, []);
    assert s.db + [TooLong] + [] == log;
  }

  /** Admitting a transaction that moves value between two accounts, or mints
      value, leaves the live balances different from what a restart would
      rebuild, since admission writes nothing to the log. */
  lemma AdmissionDivergesFromLog(genesis: Balances, s: State, tx: Tx)
    requires Recoverable(genesis, s)
    requires tx.value > 0 && (tx.IsReward() || tx.from != tx.to)
    requires AddTx(s, tx).result.Ok?
    ensures !Recoverable(genesis, AddTx(s, tx).state)
  {
  }

  /** Replay ends at the first empty line, so whatever follows it in the log
      is never replayed. */
  lemma {:induction false} ReplayStopsAtBlank(st: State, log: seq<Record>, more: seq<Record>)
    requires exists i :: 0 <= i < |log| && log[i].Blank?
    ensures ReplayFrom(st, log + more) == ReplayFrom(st, log)
    decreases |log|
  {
    assert (log + more)[0] == log[0];
    assert (log + more)[1..] == log[1..] + more;
    if log[0].Entry? {
      match ApplyTxs(st.balances, log[0].value.txs)
      case Err(_) =>
      case Ok(applied) =>
        var i :| 0 <= i < |log| && log[i].Blank?;
        assert log[1..][i - 1].Blank?;
        ReplayStopsAtBlank(
          st.(balances := applied, latestBlock := log[0].value, latestHash := log[0].key), log[1..], more);
    }
  }

  /** The log file is opened for appending, so a block committed after an
      empty line lands behind it and a restart does not replay it: a commit
      that changed the balances leaves a live state no restart rebuilds. */
  lemma CommitAfterBlankLineIsLostOnRestart(genesis: Balances, s: State, b: Block, hash: Block -> Option<Hash>, fits: Block -> bool, written: bool)
    requires Recoverable(genesis, s)
    requires exists i :: 0 <= i < |s.db| && s.db[i].Blank?
    requires AddBlock(s, b, hash, fits, written).result.Ok?
    requires ApplyTxs(s.balances, b.txs).value != s.balances
    ensures !Recoverable(genesis, AddBlock(s, b, hash, fits, written).state)
  {
    var r := AddBlock(s, b, hash, fits, written);
    var log := r.state.db;
    ReplayStopsAtBlank(Initial(genesis, log), s.db, [LogRecord(r.result.value, b, fits)]);
    ReplayIgnoresDb(Initial(genesis, s.db), s.db, log);
    assert Initial(genesis, s.db).(db := log) == Initial(genesis, log);
    assert Replay(genesis, log).value.balances == s.balances;
  }

  /** An instance: a log holding only an empty line, and a block minting one
      unit to "A". The commit succeeds, and a restart loses it. */
  lemma CommitAfterBlankLineExample()
    ensures var s := Initial(map[], [Blank]);
      var b := Block(Header(ZeroHash, 1, 0, ""), [Tx("", "A", 1, RewardTag)]);
      var hash := (blk: Block) => Some(ZeroHash);
      var fits := (blk: Block) => true;
      && Recoverable(map[], s)
      && AddBlock(s, b, hash, fits, true).result.Ok?
      && !Recoverable(map[], AddBlock(s, b, hash, fits, true).state)
  {
  }
}

=== FILE: startup.dfy ===
/**
 Rebuilding the ledger state at startup: the genesis balances are copied,
 and the transactions of every block in the log are applied again, in log
 order, until the first empty line or the end of the log.
 */
module Startup {
  import opened Types
  import opened Balances
  import opened Transition
  import opened Ledger

  /** The log has no empty line, so replay reads all of it. */
  ghost predicate NoBlankLines(log: seq<Record>)
  {
    forall i :: 0 <= i < |log| ==> !log[i].Blank?
  }

  /** The records the replay loop visits: those before the first empty line. */
  function Scanned(log: seq<Record>): (p: seq<Record>)
    ensures p <= log
    ensures NoBlankLines(p)
    ensures |p| < |log| ==> log[|p|].Blank?
    decreases |log|
  {
    if log == [] || log[0].Blank? then [] else [log[0]] + Scanned(log[1..])
  }

  /** The transactions a record carries: those of its block, if it is an entry. */
  function EntryTxs(rec: Record): seq<Tx>
  {
    if rec.Entry? then rec.value.txs else []
  }

  /** All transactions of the entries in `records`, in log order. */
  function AllTxs(records: seq<Record>): seq<Tx>
    decreases |records|
  {
    if records == [] then [] else EntryTxs(records[0]) + AllTxs(records[1..])
  }

  /** The state replay starts from: a copy of the genesis balances, an empty
      mempool, the log file, and a zero latest block and hash. */
  function Initial(genesis: Balances, log: seq<Record>): State
  {
    State(genesis, [], log, ZeroBlock, ZeroHash)
  }

  /** Replays `records` over `st`. An empty line ends the replay; a line that
      does not decode, a failed read, or a block whose transactions do not
      apply is an error. After each block the latest block and hash point
      at it. */
  function ReplayFrom(st: State, records: seq<Record>): (r: Result<State>)
    ensures r.Ok? ==> r.value.mempool == st.mempool && r.value.db == st.db
    ensures r.Ok? ==> forall i :: 0 <= i < |Scanned(records)| ==> Scanned(records)[i].Entry?
    ensures r.Ok? ==> Total(r.value.balances) == Total(st.balances) + Minted(AllTxs(Scanned(records)))
    ensures r.Ok? && Scanned(records) == [] ==> r.value == st
    ensures r.Ok? && Scanned(records) != [] ==>
      && Scanned(records)[|Scanned(records)| - 1].Entry?
      && LatestBlock(r.value) == Scanned(records)[|Scanned(records)| - 1].value
      && LatestBlockHash(r.value) == Scanned(records)[|Scanned(records)| - 1].key
    ensures r.Err? ==> r.error in {InsufficientFunds, MalformedRecord, ReadFailed}
    decreases |records|
  {
    if records == [] then Ok(st)
    else
      match records[0]
      case Blank => Ok(st)
      case Garbled => Err(MalformedRecord)
      case ReadError(_) => Err(ReadFailed)
      case TooLong => Err(ReadFailed)
      case Entry(key, blk) =>
        match ApplyTxs(st.balances, blk.txs)
        case Err(e) => Err(e)
        case Ok(applied) =>
          var next := st.(balances := applied, latestBlock := blk, latestHash := key);
          var r := ReplayFrom(next, records[1..]);
          assert Scanned(records) == [records[0]] + Scanned(records[1..]);
          assert Scanned(records)[1..] == Scanned(records[1..]);
          assert AllTxs(Scanned(records)) == blk.txs + AllTxs(Scanned(records[1..]));
          MintedAppend(blk.txs, AllTxs(Scanned(records[1..])));
          r
  }

  /** The state rebuilt from the genesis balances and the log. */
  function Replay(genesis: Balances, log: seq<Record>): (r: Result<State>)
    ensures r.Ok? ==> r.value.db == log && r.value.mempool == []
    ensures log == [] ==> r == Ok(Initial(genesis, []))
    ensures r.Ok? && Scanned(log) == [] ==>
      && r.value.balances == genesis
      && LatestBlock(r.value) == ZeroBlock
      && LatestBlockHash(r.value) == ZeroHash
  {
    ReplayFrom(Initial(genesis, log), log)
  }

  /** A scanner error the loop as written does not see: the scanner stops
      without delivering a line, so the loop ends as at the end of the log. */
  predicate Swallowed(rec: Record)
  {
    rec == ReadError(false) || rec.TooLong?
  }

  /** The replay loop of the source as written. The scanner error is checked
      only inside the loop, so it is seen only when it comes with a delivered
      line; an error that stops the scanner with nothing delivered ends the
      loop as the end of the log does, and the replay reports success. */
  function ReplayFromAsWritten(st: State, records: seq<Record>): (r: Result<State>)
    ensures r.Ok? ==> r.value.mempool == st.mempool && r.value.db == st.db
    ensures r.Err? ==> r.error in {InsufficientFunds, MalformedRecord, ReadFailed}
    ensures r.Err? && r.error == ReadFailed ==> ReadError(true) in Scanned(records)
    decreases |records|
  {
    if records == [] then Ok(st)
    else
      match records[0]
      case Blank => Ok(st)
      case Garbled => Err(MalformedRecord)
      case ReadError(pending) => if pending then Err(ReadFailed) else Ok(st)
      case TooLong => Ok(st)
      case Entry(key, blk) =>
        match ApplyTxs(st.balances, blk.txs)
        case Err(e) => Err(e)
        case Ok(applied) =>
          var r := ReplayFromAsWritten(st.(balances := applied, latestBlock := blk, latestHash := key), records[1..]);
          assert Scanned(records) == [records[0]] + Scanned(records[1..]);
          r
  }

  /** Startup as written: the loop as written run over the whole log from the
      genesis state. */
  function ReplayAsWritten(genesis: Balances, log: seq<Record>): (r: Result<State>)
    ensures r.Ok? ==> r.value.db == log && r.value.mempool == []
    ensures log == [] ==> r == Ok(Initial(genesis, []))
  {
    ReplayFromAsWritten(Initial(genesis, log), log)
  }

  /** As written, a scanner error that delivers no line hides every block
      after it: the replay succeeds with the genesis balances and a zero
      latest block, where the corrected replay reports the failure. */
  lemma ReadFailureHidesLaterBlocks(genesis: Balances, stop: Record, blocks: seq<Record>)
    requires Swallowed(stop)
    ensures ReplayAsWritten(genesis, [stop] + blocks) == Ok(Initial(genesis, [stop] + blocks))
    ensures Replay(genesis, [stop] + blocks) == Err(ReadFailed)
  {
  }

  /** The loop as written and the corrected replay differ only on scanner
      errors that deliver no line: on a log where none is visited they give
      the same result, including a read error reported with its buffered line. */
  lemma {:induction false} AsWrittenAgreesWithoutSwallowedErrors(st: State, records: seq<Record>)
    requires forall i :: 0 <= i < |Scanned(records)| ==> !Swallowed(Scanned(records)[i])
    ensures ReplayFromAsWritten(st, records) == ReplayFrom(st, records)
    decreases |records|
  {
    if records != [] && records[0].Entry? {
      var tail := Scanned(records[1..]);
      assert Scanned(records) == [records[0]] + tail;
      forall i | 0 <= i < |tail| ensures !Swallowed(tail[i]) {
        assert tail[i] == Scanned(records)[i + 1];
      }
      match ApplyTxs(st.balances, records[0].value.txs)
      case Err(_) =>
      case Ok(applied) =>
        AsWrittenAgreesWithoutSwallowedErrors(
          st.(balances := applied, latestBlock := records[0].value, latestHash := records[0].key), records[1..]);
    } else if records != [] && !records[0].Blank? {
      assert Scanned(records)[0] == records[0];
    }
  }

  /** Replay is one fold of the transition function over the transactions of
      all scanned blocks, concatenated in log order. */
  lemma {:induction false} ReplayIsOneFold(st: State, records: seq<Record>)
    requires forall i :: 0 <= i < |Scanned(records)| ==> Scanned(records)[i].Entry?
    ensures ReplayFrom(st, records).Ok? <==> ApplyTxs(st.balances, AllTxs(Scanned(records))).Ok?
    ensures ReplayFrom(st, records).Ok? ==>
      ReplayFrom(st, records).value.balances == ApplyTxs(st.balances, AllTxs(Scanned(records))).value
    decreases |records|
  {
    if records == [] || records[0].Blank? {
    } else {
      var head := records[0];
      var tail := Scanned(records[1..]);
      assert Scanned(records) == [head] + tail;
      assert head.Entry? by { assert Scanned(records)[0] == head; }
      assert AllTxs(Scanned(records)) == head.value.txs + AllTxs(tail) by {
        assert ([head] + tail)[1..] == tail;
      }
      forall i | 0 <= i < |tail| ensures tail[i].Entry? {
        assert tail[i] == Scanned(records)[i + 1];
      }
      ApplyTxsAppend(st.balances, head.value.txs, AllTxs(tail));
      match ApplyTxs(st.balances, head.value.txs)
      case Err(_) =>
      case Ok(applied) =>
        ReplayIsOneFold(st.(balances := applied, latestBlock := head.value, latestHash := head.key), records[1..]);
    }
  }

  /** The replay loop of the startup routine, with the read failure that ends
      the scan reported as an error. */
  method NewStateFromDisk(genesis: Balances, log: seq<Record>) returns (r: Result<State>)
    ensures r == Replay(genesis, log)
  {
    var state := Initial(genesis, log);
    var i := 0;
    while i < |log|
      invariant 0 <= i <= |log|
      invariant Replay(genesis, log) == ReplayFrom(state, log[i..])
    {
      assert log[i..][0] == log[i];
      assert log[i..][1..] == log[i + 1..];
      match log[i]
      case ReadError(_) =>
        return Err(ReadFailed);
      case TooLong =>
        return Err(ReadFailed);
      case Blank =>
        return Ok(state);
      case Garbled =>
        return Err(MalformedRecord);
      case Entry(key, blk) =>
        var applied := ApplyBlock(state.balances, blk);
        if applied.Err? {
          return Err(applied.error);
        }
        state := state.(balances := applied.value, latestBlock := blk, latestHash := key);
      i := i + 1;
    }
    return Ok(state);
  }
}

=== FILE: state.dfy ===
/**
 The ledger state: live balances, the mempool of admitted transactions, the
 contents of the block log, and the latest committed block and its hash.
 Transactions are admitted one at a time; blocks are committed with a
 clone-apply-hash-write-swap protocol.
 */
module Ledger {
  import opened Types
  import opened Balances
  import opened Transition

  /** `db` is the content of the append-only block log file. */
  datatype State = State(
    balances: Balances,
    mempool: seq<Tx>,
    db: seq<Record>,
    latestBlock: Block,
    latestHash: Hash)

  /** The state after an operation together with what it returned. */
  datatype Step<T> = Step(state: State, result: Result<T>)

  function LatestBlock(s: State): Block
  {
    s.latestBlock
  }

  function LatestBlockHash(s: State): Hash
  {
    s.latestHash
  }

  /** Admits a transaction: it is applied to the live balances at once and,
      only if that succeeds, appended to the mempool. */
  function AddTx(s: State, tx: Tx): (r: Step<()>)
    ensures r.result.Ok? <==> tx.IsReward() || tx.value <= Get(s.balances, tx.from)
    ensures r.result.Err? ==> r.result.error == InsufficientFunds && r.state == s
    ensures r.result.Ok? ==>
      && r.state.mempool == s.mempool + [tx]
      && (forall a :: Get(r.state.balances, a) == Get(s.balances, a) + Delta(tx, a))
      && r.state.db == s.db
      && r.state.latestBlock == s.latestBlock
      && r.state.latestHash == s.latestHash
    ensures Total(r.state.balances) == Total(s.balances) + (if r.result.Ok? then MintedBy(tx) else 0)
  {
    match Apply(s.balances, tx)
    case Err(e) => Step(s, Err(e))
    case Ok(applied) => Step(s.(balances := applied, mempool := s.mempool + [tx]), Ok(()))
  }

  /** The record a restart reads back for the line that logs block `b`
      under hash `h`. The reader's scanner has the default 64 KiB token
      limit and the writer has none, so a line that does not `fit` comes
      back as the scanner's too-long error rather than as an entry. */
  function LogRecord(h: Hash, b: Block, fits: Block -> bool): (rec: Record)
    ensures rec.Entry? <==> fits(b)
    ensures rec.Entry? ==> rec.key == h && rec.value == b
    ensures !rec.Entry? ==> rec == TooLong
  {
    if fits(b) then Entry(h, b) else TooLong
  }

  /** Commits a block. The block is applied to a copy of the state; then it
      is hashed and its (hash, block) record appended to the log; only when
      the append succeeded does the live state take the copy's balances and
      point at the new block. `hash` is the block hash function, which may
      fail; `written` is whether the append to the log succeeded; `fits` is
      whether the block's line is short enough for the log reader (see
      LogRecord). */
  function AddBlock(s: State, b: Block, hash: Block -> Option<Hash>, fits: Block -> bool, written: bool): (r: Step<Hash>)
    ensures r.result.Ok? <==> ApplyTxs(s.balances, b.txs).Ok? && hash(b).Some? && written
    ensures r.result.Err? ==> r.state == s
    ensures r.result.Err? ==>
      r.result.error
        == (if ApplyTxs(s.balances, b.txs).Err? then InsufficientFunds
            else if hash(b).None? then HashFailed
            else WriteFailed)
    ensures r.result.Ok? ==>
      && hash(b) == Some(r.result.value)
      && r.state.balances == ApplyTxs(s.balances, b.txs).value
      && LatestBlock(r.state) == b
      && LatestBlockHash(r.state) == r.result.value
      && r.state.db == s.db + [LogRecord(r.result.value, b, fits)]
      && r.state.mempool == s.mempool
    ensures Total(r.state.balances) == Total(s.balances) + (if r.result.Ok? then Minted(b.txs) else 0)
  {
    var pending := s;
    match ApplyTxs(pending.balances, b.txs)
    case Err(e) => Step(s, Err(e))
    case Ok(applied) =>
      match hash(b)
      case None => Step(s, Err(HashFailed))
      case Some(h) =>
        if !written then Step(s, Err(WriteFailed))
        else
          Step(s.(balances := applied, db := s.db + [LogRecord(h, b, fits)], latestBlock := b, latestHash := h), Ok(h))
  }

  /** `appended` are the log records of the first |appended| blocks, each
      keyed by its hash (a too-long record where the block's line does not
      fit). */
  ghost predicate LogsBlocks(appended: seq<Record>, blocks: seq<Block>, hash: Block -> Option<Hash>, fits: Block -> bool)
  {
    && |appended| <= |blocks|
    && forall i :: 0 <= i < |appended| ==>
         hash(blocks[i]).Some? && appended[i] == LogRecord(hash(blocks[i]).value, blocks[i], fits)
  }

  lemma LogsBlocksCons(h: Hash, appended: seq<Record>, blocks: seq<Block>, hash: Block -> Option<Hash>, fits: Block -> bool)
    requires blocks != [] && hash(blocks[0]) == Some(h)
    requires LogsBlocks(appended, blocks[1..], hash, fits)
    ensures LogsBlocks([LogRecord(h, blocks[0], fits)] + appended, blocks, hash, fits)
  {
  }

  /** Commits blocks one at a time and stops at the first that fails; the
      blocks committed before it stay committed. `written(i)` is the outcome
      of the i-th append to the log. */
  function AddBlocks(s: State, blocks: seq<Block>, hash: Block -> Option<Hash>, fits: Block -> bool, written: nat -> bool): (r: Step<()>)
    ensures s.db <= r.state.db && |r.state.db| <= |s.db| + |blocks|
    ensures r.result.Ok? <==> |r.state.db| == |s.db| + |blocks|
    ensures r.state.mempool == s.mempool
    decreases |blocks|
  {
    if blocks == [] then Step(s, Ok(()))
    else
      var first := AddBlock(s, blocks[0], hash, fits, written(0));
      if first.result.Err? then Step(first.state, Err(first.result.error))
      else AddBlocks(first.state, blocks[1..], hash, fits, (i: nat) => written(i + 1))
  }

  /** The number of blocks a call of AddBlocks committed. */
  function CommittedCount(s: State, r: Step<()>): int
  {
    |r.state.db| - |s.db|
  }

  /** Each block AddBlocks committed left exactly one log record, keyed by
      its hash, in block order (too long to read back where it does not
      fit). */
  lemma {:induction false} AddBlocksLogsEachBlock(s: State, blocks: seq<Block>, hash: Block -> Option<Hash>, fits: Block -> bool, written: nat -> bool)
    ensures var r := AddBlocks(s, blocks, hash, fits, written);
      LogsBlocks(r.state.db[|s.db|..], blocks, hash, fits)
    decreases |blocks|
  {
    var r := AddBlocks(s, blocks, hash, fits, written);
    if blocks == [] {
    } else {
      var first := AddBlock(s, blocks[0], hash, fits, written(0));
      if first.result.Err? {
        assert r.state.db[|s.db|..] == [];
      } else {
        var w := (i: nat) => written(i + 1);
        AddBlocksLogsEachBlock(first.state, blocks[1..], hash, fits, w);
        assert r.state.db[|s.db|..] == [LogRecord(first.result.value, blocks[0], fits)] + r.state.db[|first.state.db|..];
        LogsBlocksCons(first.result.value, r.state.db[|first.state.db|..], blocks, hash, fits);
      }
    }
  }

  /** AddBlocks fails exactly at the first block whose commit fails, on the
      state the blocks before it produced, and reports that block's error. */
  lemma {:induction false} AddBlocksStopsAtFirstFailure(s: State, blocks: seq<Block>, hash: Block -> Option<Hash>, fits: Block -> bool, written: nat -> bool)
    ensures var r := AddBlocks(s, blocks, hash, fits, written);
      var n := CommittedCount(s, r);
      r.result.Err? ==>
        0 <= n < |blocks| && AddBlock(r.state, blocks[n], hash, fits, written(n)).result == Err(r.result.error)
    decreases |blocks|
  {
    if blocks != [] {
      var first := AddBlock(s, blocks[0], hash, fits, written(0));
      if first.result.Ok? {
        var w := (i: nat) => written(i + 1);
        AddBlocksStopsAtFirstFailure(first.state, blocks[1..], hash, fits, w);
        var r := AddBlocks(first.state, blocks[1..], hash, fits, w);
        var n := CommittedCount(first.state, r);
        if r.result.Err? {
          assert CommittedCount(s, r) == n + 1;
          assert blocks[n + 1] == blocks[1..][n];
          assert w(n) == written(n + 1);
        }
      }
    }
  }

  /** After AddBlocks succeeds on a non-empty list, the latest block is the
      last one and the latest hash is its hash. */
  lemma {:induction false} AddBlocksPointsAtLastBlock(s: State, blocks: seq<Block>, hash: Block -> Option<Hash>, fits: Block -> bool, written: nat -> bool)
    requires blocks != []
    ensures var r := AddBlocks(s, blocks, hash, fits, written);
      r.result.Ok? ==>
        && r.state.latestBlock == blocks[|blocks| - 1]
        && hash(blocks[|blocks| - 1]) == Some(r.state.latestHash)
    decreases |blocks|
  {
    var first := AddBlock(s, blocks[0], hash, fits, written(0));
    if first.result.Ok? && |blocks| > 1 {
      AddBlocksPointsAtLastBlock(first.state, blocks[1..], hash, fits, (i: nat) => written(i + 1));
    }
  }

  /** The transactions of a sequence of blocks, block after block. */
  function BlocksTxs(bs: seq<Block>): seq<Tx>
    decreases |bs|
  {
    if bs == [] then [] else bs[0].txs + BlocksTxs(bs[1..])
  }

  /** The balances AddBlocks leaves are those of applying, in order, every
      transaction of the blocks it committed to the balances it started
      from; blocks after the first failure have no effect. */
  lemma {:induction false} AddBlocksAppliesCommitted(s: State, blocks: seq<Block>, hash: Block -> Option<Hash>, fits: Block -> bool, written: nat -> bool)
    ensures var r := AddBlocks(s, blocks, hash, fits, written);
      ApplyTxs(s.balances, BlocksTxs(blocks[..CommittedCount(s, r)])) == Ok(r.state.balances)
    decreases |blocks|
  {
    var r := AddBlocks(s, blocks, hash, fits, written);
    if blocks == [] {
    } else {
      var first := AddBlock(s, blocks[0], hash, fits, written(0));
      if first.result.Err? {
        assert blocks[..CommittedCount(s, r)] == [];
      } else {
        AddBlocksAppliesCommitted(first.state, blocks[1..], hash, fits, (i: nat) => written(i + 1));
        var k := CommittedCount(first.state, r);
        assert CommittedCount(s, r) == k + 1;
        var done := blocks[..k + 1];
        assert done[0] == blocks[0] && done[1..] == blocks[1..][..k];
        assert BlocksTxs(done) == blocks[0].txs + BlocksTxs(blocks[1..][..k]);
        ApplyTxsAppend(s.balances, blocks[0].txs, BlocksTxs(blocks[1..][..k]));
      }
    }
  }

  /** The blocks AddBlocks committed change the total by exactly what they
      minted. */
  lemma AddBlocksMintsCommitted(s: State, blocks: seq<Block>, hash: Block -> Option<Hash>, fits: Block -> bool, written: nat -> bool)
    ensures var r := AddBlocks(s, blocks, hash, fits, written);
      Total(r.state.balances) == Total(s.balances) + Minted(BlocksTxs(blocks[..CommittedCount(s, r)]))
  {
    AddBlocksAppliesCommitted(s, blocks, hash, fits, written);
  }

  /** The latest block and hash are those of the last block AddBlocks
      committed, and are unchanged when it committed none, whether the call
      succeeded or stopped part-way. */
  lemma {:induction false} AddBlocksPointsAtLastCommitted(s: State, blocks: seq<Block>, hash: Block -> Option<Hash>, fits: Block -> bool, written: nat -> bool)
    ensures var r := AddBlocks(s, blocks, hash, fits, written);
      var n := CommittedCount(s, r);
      && (n == 0 ==> r.state.latestBlock == s.latestBlock && r.state.latestHash == s.latestHash)
      && (n > 0 ==> r.state.latestBlock == blocks[n - 1] && hash(blocks[n - 1]) == Some(r.state.latestHash))
    decreases |blocks|
  {
    if blocks != [] {
      var first := AddBlock(s, blocks[0], hash, fits, written(0));
      if first.result.Ok? {
        var w := (i: nat) => written(i + 1);
        AddBlocksPointsAtLastCommitted(first.state, blocks[1..], hash, fits, w);
        var r := AddBlocks(first.state, blocks[1..], hash, fits, w);
        var k := CommittedCount(first.state, r);
        assert CommittedCount(s, r) == k + 1;
        if k > 0 {
          assert blocks[k] == blocks[1..][k - 1];
        }
      }
    }
  }

  /** Admission and commit are two independent paths over the live balances:
      a transaction admitted to the mempool and then committed in a block
      takes effect twice, and the mempool still holds it afterwards. */
  lemma AdmittedThenCommittedTakesEffectTwice(s: State, tx: Tx, b: Block, hash: Block -> Option<Hash>, fits: Block -> bool, written: bool)
    requires b.txs == [tx]
    requires AddTx(s, tx).result.Ok?
    requires AddBlock(AddTx(s, tx).state, b, hash, fits, written).result.Ok?
    ensures var final := AddBlock(AddTx(s, tx).state, b, hash, fits, written).state;
      && (forall a :: Get(final.balances, a) == Get(s.balances, a) + 2 * Delta(tx, a))
      && final.mempool == s.mempool + [tx]
  {
    var mid := AddTx(s, tx).state;
    assert ApplyTxs(mid.balances, b.txs) == Apply(mid.balances, tx) by {
      assert b.txs[1..] == [];
    }
  }
}

=== FILE: transition.dfy ===
/**
 The state-transition function of the ledger: one transaction applied to a
 balances table, and a block's transactions applied in order, stopping at
 the first failure.
 */
module Transition {
  import opened Types
  import opened Balances

  /** The amount a transaction adds to account `a` (negative for a debit):
      the recipient gains the value, and the sender of a transfer loses it. */
  function Delta(tx: Tx, a: Account): int
  {
    (if a == tx.to then tx.value else 0)
    - (if !tx.IsReward() && a == tx.from then tx.value else 0)
  }

  /** The amount a transaction brings into circulation. */
  function MintedBy(tx: Tx): nat
  {
    if tx.IsReward() then tx.value else 0
  }

  /** The amount a sequence of transactions brings into circulation. */
  function Minted(txs: seq<Tx>): nat
    decreases |txs|
  {
    if txs == [] then 0 else MintedBy(txs[0]) + Minted(txs[1..])
  }

  /** What two runs of transactions mint together is the sum of what each mints. */
  lemma {:induction false} MintedAppend(a: seq<Tx>, b: seq<Tx>)
    ensures Minted(a + b) == Minted(a) + Minted(b)
    decreases |a|
  {
    if a == [] {
      assert a + b == b;
    } else {
      assert (a + b)[0] == a[0];
      assert (a + b)[1..] == a[1..] + b;
      MintedAppend(a[1..], b);
    }
  }

  /** Applies one transaction. A reward credits its recipient
      unconditionally; a transfer fails when its value exceeds the sender's
      balance, and otherwise debits the sender and credits the recipient. */
  function Apply(bal: Balances, tx: Tx): (r: Result<Balances>)
    ensures r.Ok? <==> tx.IsReward() || tx.value <= Get(bal, tx.from)
    ensures r.Err? ==> r.error == InsufficientFunds
    ensures r.Ok? ==> forall a :: Get(r.value, a) == Get(bal, a) + Delta(tx, a)
    ensures r.Ok? ==> Total(r.value) == Total(bal) + MintedBy(tx)
  {
    if tx.IsReward() then
      var credited := bal[tx.to := Get(bal, tx.to) + tx.value];
      TotalUpdate(bal, tx.to, Get(bal, tx.to) + tx.value);
      Ok(credited)
    else if tx.value > Get(bal, tx.from) then
      Err(InsufficientFunds)
    else
      var debited := bal[tx.from := Get(bal, tx.from) - tx.value];
      var credited := debited[tx.to := Get(debited, tx.to) + tx.value];
      TotalUpdate(bal, tx.from, Get(bal, tx.from) - tx.value);
      TotalUpdate(debited, tx.to, Get(debited, tx.to) + tx.value);
      Ok(credited)
  }

  /** Applies transactions in order; each sees the balances the earlier
      ones produced, and the first failure is the result. */
  function ApplyTxs(bal: Balances, txs: seq<Tx>): (r: Result<Balances>)
    ensures r.Err? ==> r.error == InsufficientFunds
    ensures r.Ok? ==> Total(r.value) == Total(bal) + Minted(txs)
    ensures (forall i :: 0 <= i < |txs| ==> txs[i].IsReward()) ==> r.Ok?
    decreases |txs|
  {
    if txs == [] then Ok(bal)
    else
      match Apply(bal, txs[0])
      case Err(e) => Err(e)
      case Ok(next) => ApplyTxs(next, txs[1..])
  }

  /** Applying `a + b` is applying `a` and then, if that succeeded, `b`. */
  lemma {:induction false} ApplyTxsAppend(bal: Balances, a: seq<Tx>, b: seq<Tx>)
    ensures ApplyTxs(bal, a + b)
         == (if ApplyTxs(bal, a).Err? then ApplyTxs(bal, a) else ApplyTxs(ApplyTxs(bal, a).value, b))
    decreases |a|
  {
    if a == [] {
      assert a + b == b;
    } else {
      assert (a + b)[0] == a[0];
      assert (a + b)[1..] == a[1..] + b;
      match Apply(bal, a[0])
      case Err(_) =>
      case Ok(next) => ApplyTxsAppend(next, a[1..], b);
    }
  }

  /** The i-th transaction fails, on the balances the ones before it produced. */
  ghost predicate FailsAt(bal: Balances, txs: seq<Tx>, i: int)
  {
    && 0 <= i < |txs|
    && ApplyTxs(bal, txs[..i]).Ok?
    && Apply(ApplyTxs(bal, txs[..i]).value, txs[i]).Err?
  }

  /** The transactions after a successful prefix see that prefix's balances:
      extending the prefix by one applies the next transaction to them. */
  lemma ApplyTxsStep(bal: Balances, txs: seq<Tx>, i: nat)
    requires i < |txs|
    requires ApplyTxs(bal, txs[..i]).Ok?
    ensures ApplyTxs(bal, txs[..i + 1]) == Apply(ApplyTxs(bal, txs[..i]).value, txs[i])
  {
    assert txs[..i + 1] == txs[..i] + [txs[i]];
    ApplyTxsAppend(bal, txs[..i], [txs[i]]);
    assert [txs[i]][1..] == [];
  }

  /** A block fails exactly when some transaction fails on the balances its
      predecessors produced, and then the whole result is that failure. */
  lemma {:induction false} ApplyTxsFailsIffSomeTxFails(bal: Balances, txs: seq<Tx>)
    ensures ApplyTxs(bal, txs).Err? <==> exists i :: FailsAt(bal, txs, i)
    decreases |txs|
  {
    if txs == [] {
    } else {
      var t := txs[0];
      assert txs[..0] == [];
      assert ApplyTxs(bal, txs[..1]) == Apply(bal, t) by { ApplyTxsStep(bal, txs, 0); }
      match Apply(bal, t)
      case Err(_) =>
        assert FailsAt(bal, txs, 0);
      case Ok(next) =>
        ApplyTxsFailsIffSomeTxFails(next, txs[1..]);
        // shift indices between txs and its tail
        forall i | 0 <= i < |txs| - 1
          ensures FailsAt(next, txs[1..], i) <==> FailsAt(bal, txs, i + 1)
        {
          assert txs[..i + 1] == [t] + txs[1..][..i];
          ApplyTxsAppend(bal, [t], txs[1..][..i]);
          assert [t][1..] == [];
        }
        if exists i :: FailsAt(bal, txs, i) {
          var i :| FailsAt(bal, txs, i);
          assert i != 0;
          assert FailsAt(next, txs[1..], i - 1);
        }
        if exists i :: FailsAt(next, txs[1..], i) {
          var i :| FailsAt(next, txs[1..], i);
          assert FailsAt(bal, txs, i + 1);
        }
    }
  }

  /** The loop over a block's transactions: each is applied to the running
      balances, and the first failure is returned at once. */
  method ApplyBlock(bal: Balances, b: Block) returns (r: Result<Balances>)
    ensures r == ApplyTxs(bal, b.txs)
  {
    var cur := bal;
    var i := 0;
    assert b.txs[..0] == [];
    while i < |b.txs|
      invariant 0 <= i <= |b.txs|
      invariant ApplyTxs(bal, b.txs[..i]) == Ok(cur)
    {
      var step := Apply(cur, b.txs[i]);
      ApplyTxsStep(bal, b.txs, i);
      if step.Err? {
        assert b.txs == b.txs[..i + 1] + b.txs[i + 1..];
        ApplyTxsAppend(bal, b.txs[..i + 1], b.txs[i + 1..]);
        return Err(step.error);
      }
      cur := step.value;
      i := i + 1;
    }
    assert b.txs[..i] == b.txs;
    return Ok(cur);
  }
}

=== FILE: types.dfy ===
/**
 The values the ledger works on: accounts, transactions, blocks, block
 hashes and the records of the append-only block log, together with the
 error and result types every fallible operation returns.
 */
module Types {

  /** An account is an opaque, comparable name. */
  type Account = string

  type Byte = bv8

  /** A block hash is a fixed-size 32-byte digest. */
  type Hash = h: seq<Byte> | |h| == 32 witness Zeros(32)

  /** `n` zero bytes. */
  function Zeros(n: nat): (z: seq<Byte>)
    ensures |z| == n && forall i :: 0 <= i < n ==> z[i] == 0
  {
    if n == 0 then [] else [0] + Zeros(n - 1)
  }

  /** The all-zero hash, the value of a hash that was never set. */
  const ZeroHash: Hash := Zeros(32)

  /** The data tag that marks a transaction as a reward (a mint). */
  const RewardTag: string := "reward"

  /** A transaction: an unsigned amount moved from one account to another,
      with a free-form data tag. */
  datatype Tx = Tx(from: Account, to: Account, value: nat, data: string)
  {
    /** A reward transaction credits its recipient without debiting anyone. */
    predicate IsReward()
    {
      data == RewardTag
    }
  }

  datatype Header = Header(parent: Hash, number: nat, time: nat, author: Account)

  /** A header plus an ordered batch of transactions. */
  datatype Block = Block(header: Header, txs: seq<Tx>)

  /** The zero value of a block: what the state reports before any block. */
  const ZeroBlock: Block := Block(Header(ZeroHash, 0, 0, ""), [])

  /** One line of the block log as the line scanner delivers it: a decoded
      (hash, block) entry, an empty line, or a line that does not decode;
      or the point where the scanner stops with an error. A read can fail
      while an unterminated line is buffered (`pending`), in which case the
      scanner still delivers that line and reports the error with it; or with
      nothing buffered. A line longer than the scanner's token limit stops it
      without delivering anything. */
  datatype Record =
    | Entry(key: Hash, value: Block)
    | Blank
    | Garbled
    | ReadError(pending: bool)
    | TooLong

  datatype Error =
    | InsufficientFunds   // a transfer larger than the sender's balance
    | HashFailed          // the block could not be hashed
    | WriteFailed         // the log record could not be encoded or appended
    | MalformedRecord     // a log line does not decode to a (hash, block) entry
    | ReadFailed          // the log could not be read to its end

  datatype Result<T> = Ok(value: T) | Err(error: Error)

  datatype Option<T> = None | Some(value: T)
}
